=== FILE: README.md ===
# Voice home-automation server: Dafny model

This project models the decision logic of the Python server of a voice
home-automation hub. ESP32 devices stream 16 kHz, 16-bit mono PCM audio over
UDP; the server gathers each sender's datagrams into utterances, has them
recognised as text, picks a colour from the text by keyword matching, sends
`COLOR_<NAME>` back to the device on the control port, and keeps a
per-device energy simulation. Devices also report their colour with
`STATUS:<text>` datagrams, and an HTTP endpoint sets a device's colour by hand.

The model keeps one colour per device, exactly as the server does.

| file | module | what it models |
|---|---|---|
| `wrappers.dfy` | `Wrappers` | `Option`, standing for Python's `None` returns |
| `text.dfy` | `Text` | `lower`, `upper`, `in`, `startswith`, `replace`, `split(":", 1)` |
| `commands.dfy` | `Commands` | the seven colours, the voice keyword interpreter, `COLOR_<NAME>` wire strings, manual colour validation |
| `control.dfy` | `Control` | device id `esp32_<ip with _>` and its reverse, `STATUS:` parsing |
| `segmenter.dfy` | `Segmenter` | per-sender audio buffers: ingest, size-triggered flush, timeout sweep |
| `energy.dfy` | `Energy` | the energy simulator: power table, colour updates, samples, queries |
| `server.dfy` | `Server` | the handlers as pure steps over one state: audio loop iteration, utterance processing, status listener, manual control |

Conventions:
- Time is an integer number of milliseconds passed in as `now`. The source reads `time.time()` and `datetime.now()` instead.
- Power is integer milliwatts, so 66 mW is the simulator's 0.066 W.
- Text is `string`. Case mapping is ASCII only.
- The recogniser is a parameter: a function from audio bytes to `Heard(text)`, `Unintelligible` or `Unavailable`.
- The devices table is a map from device id to its address and colour columns.
- The command log, the energy log and the control datagrams sent are sequences.
- Python dictionaries iterate in insertion order. The audio buffers therefore carry an explicit `order` of senders next to the map.

Points where the model follows the code closely:
- The interpreter works on substrings, not words. Any text containing `red` (such as "tired") selects RED, even when it also says "turn off".
- The first energy update of a device only registers it as OFF. The interval that follows is then sampled as OFF at 0 mW, whatever colour was sent.
- The manual endpoint reverse-maps the *address column* of the device row when it starts with `esp32_`. That column holds the raw IP written by `upsert_device`, so for dotted-digit addresses the address is used unchanged (`Control.AddressOfPlainIp`).
- Status text is stored verbatim. It is not checked against the palette and never touches the energy state.

## Model

| member | source | states |
|---|---|---|
| `Text.ContainsIff` | server/main.py:150-170 | the scanning substring test used for Python's `in` holds exactly when the phrase occurs at some position of the text |
| `Commands.FirstMatch` | server/main.py:150-170 | evaluating an ordered rule list yields None iff no rule fires, and otherwise the colour of a firing rule with no firing rule before it |
| `Commands.FirstMatchByRank` | server/main.py:150-170 | with the fixed priority red, green, blue, white, off, purple, yellow, the rule list picks exactly the lowest-ranked colour that fires, and None iff none fires |
| `Commands.Interpret` | server/main.py:146-170 | the text is lower-cased; the result is colour c iff the text mentions one of c's phrases and no higher-priority colour's phrase; None iff no phrase occurs |
| `Commands.InterpretIsChain` | server/main.py:146-170 | the priority-list interpreter equals the source's if/elif chain of substring tests on every text |
| `Commands.RedWins` | server/main.py:150-152 | any text whose lower-cased form contains "red" yields RED, whatever else it contains |
| `Commands.WireInjective` | server/main.py:150-170 | each wire command is `COLOR_` followed by the colour name, and distinct colours have distinct wire commands |
| `Commands.FromName` | server/main.py:315-321 | the seven-entry table maps a name to colour c iff the name is exactly c's upper-case name, and yields nothing for every other string |
| `Commands.ManualColour` | server/main.py:321-323 | a requested colour is accepted as c iff its upper-cased form is c's name; otherwise it is rejected |
| `Commands.ManualAcceptsAnyCase` | server/main.py:321 | every palette colour is accepted when written in any mixture of upper and lower case |
| `Control.DeviceIdOf` | server/main.py:113-115 | a device id is `esp32_` followed by the IP, one character per IP character, with no `.` left after the prefix |
| `Control.DeviceIdRoundTrip` | server/main.py:325-327 | for an IP of digits and dots, stripping `esp32_` and turning `_` back into `.` recovers the IP from its device id |
| `Control.DeviceIdInjective` | server/main.py:113-115 | distinct dotted-digit IPs give distinct device ids |
| `Control.AddressOfPlainIp` | server/main.py:326-329 | an address column holding a dotted-digit IP is used unchanged as the destination |
| `Control.ParseStatus` | server/main.py:272-273 | a message yields a colour iff it starts with `STATUS:`, and the message is then exactly `STATUS:` followed by that colour |
| `Control.StatusRoundTrip` | server/main.py:272-273 | `STATUS:` followed by any text, colons included, yields that text verbatim |
| `Segmenter.Receive` | server/main.py:225 | a datagram is read as its first at most 2048 bytes, and whole when it fits |
| `Segmenter.Ingest` | server/main.py:228-240 | an unseen sender is added at the end of the iteration order; the bytes are appended in arrival order and the time set to now; the buffer is flushed iff it reaches 96000 bytes, then emptied with the entry kept; flushed plus retained bytes equal old plus received bytes; other senders are unchanged; retained buffers stay under 96000 bytes and a flush is under 96000 + 2048 bytes |
| `Segmenter.KeptFrom` | server/main.py:246-254 | the sweep keeps exactly the senders not silent for more than 1000 ms, each once, in their previous relative order |
| `Segmenter.ReadyFrom` | server/main.py:246-253 | every buffer the sweep hands on belongs to a listed sender that timed out and holds more than 16000 bytes, and is that sender's buffer unchanged |
| `Segmenter.ReadyFromInOrder` | server/main.py:246-253 | the buffers the sweep hands on follow the iteration order of their senders |
| `Segmenter.ReadyFromComplete` | server/main.py:246-253 | every listed sender that timed out with more than 16000 bytes has its buffer handed on |
| `Segmenter.ReadyFromDistinct` | server/main.py:246-254 | over a duplicate-free sender list, no sender's buffer is handed on twice |
| `Segmenter.Sweep` | server/main.py:245-255 | after a sweep, a sender keeps its entry iff it was not silent for more than 1000 ms; kept entries are unchanged; timed-out buffers of more than 16000 bytes, and only those, are handed on; the others are discarded; kept senders keep their relative order, and handed-on buffers follow the iteration order |
| `Segmenter.SweepHandsOnOnce` | server/main.py:246-255 | a sweep hands each sender's buffer on at most once |
| `Segmenter.IngestAll` | server/main.py:222-240 | feeding datagrams in sequence keeps every sender with a buffer listed exactly once in the iteration order |
| `Segmenter.IngestAllBounded` | server/main.py:225-240 | however many datagrams arrive, every retained buffer stays under 96000 bytes |
| `Segmenter.IngestAllFlushSizes` | server/main.py:225-240 | however many datagrams arrive, every size-triggered flush holds at least 96000 and fewer than 96000 + 2048 bytes |
| `Segmenter.IngestConserves` | server/main.py:234-240 | for one sender's datagrams, the flushed audio followed by the retained buffer is exactly the earlier buffer followed by all received bytes in arrival order |
| `Energy.PowerMw` | server/energy_simulator.py:21-23 | power is looked up on the upper-cased colour; a colour missing from the table draws 0; every power is a multiple of 66 mW, at most 198 |
| `Energy.PowerPerDie` | server/energy_simulator.py:8-16 | each palette colour draws 66 mW per lit die: red, green and blue 66, purple and yellow 132, white 198, off 0 |
| `Energy.PowerIgnoresCase` | server/energy_simulator.py:21-23 | the power of a colour equals the power of its upper-cased form |
| `Energy.Update` | server/energy_simulator.py:25-62 | a first update registers the device as OFF, 0 mW, last update now, with no sample, and ignores the requested colour; a later update returns a sample with the previous colour, power and start time, lasting from that start to now, and stores the new colour verbatim with its table power; no other device changes |
| `Energy.UpdateKeepsConsistent` | server/energy_simulator.py:44-53 | if every stored power is its colour's table power, that still holds after an update, and every sample's power is the power of its colour |
| `Energy.CurrentPower` | server/energy_simulator.py:64-68 | an unseen device draws 0; a known device draws the stored power, which is its colour's table power in a consistent state |
| `Energy.DeviceState` | server/energy_simulator.py:70-74 | an unseen device reads OFF, 0, no time, without being created; a known device reads its stored colour, power and time |
| `Energy.UpdateThenQuery` | server/energy_simulator.py:48-68 | after a later update, the device draws the new colour's power and reports the new colour at time now |
| `Energy.EnergyWh` | server/database.py:161 | energy is non-negative for a non-negative duration, and zero iff the power or the duration is zero |
| `Energy.EnergySplits` | server/database.py:161 | at constant power, the energies of two consecutive intervals add up to the energy of the whole interval |
| `Energy.OneWattHour` | server/database.py:161 | one hour at 1000 mW is exactly one watt-hour |
| `Energy.UpdateAll` | server/energy_simulator.py:25-62 | after any non-empty run of updates, the device has an entry |
| `Energy.TilingKnown` | server/energy_simulator.py:41-61 | for a known device, n changes give n samples; sample i covers the time from the previous change to change i, in the colour set before it; the durations add up to the time from the stored update to the last change |
| `Energy.Tiling` | server/energy_simulator.py:33-61 | for a new device, changes at t1..tn give n-1 samples whose durations add up to tn - t1; the first of them is OFF at 0 mW |
| `Server.Upsert` | server/database.py:64-88 | upserting adds the device if missing, with colour OFF; it sets the address, keeps an existing colour and changes no other row |
| `Server.SetColour` | server/database.py:92-103 | setting a colour changes only that device's colour column, and only when the device exists |
| `Server.ProcessUtterance` | server/main.py:126-214 | the sender's row is upserted first. A recognised colour c is sent as `COLOR_<c>` to the sender's control port; it closes the energy interval, logs its sample, becomes the colour of that device and of no other, and is logged as a success. Text with no colour, or a recogniser failure, sends nothing and leaves the energy state and log untouched; it is logged as `NONE`, `UNKNOWN`/`ERROR` or `ERROR`/`ERROR` with failure |
| `Server.ProcessUtteranceConfined` | server/main.py:126-198 | processing one buffer changes no device row but its sender's; it changes the energy state and energy log only when a colour command is sent, and then only for the sender, which then has an energy entry, the energy log gaining at most the one row of the closed interval |
| `Server.HeardOf` | server/main.py:172-198 | the senders heard giving a colour are among the run's senders, and include every sender whose buffer makes a colour command go out |
| `Server.NothingSentNothingHeard` | server/main.py:172-198 | a run of buffers sends no datagram exactly when none of its senders is heard giving a colour, in both directions |
| `Server.RunsConcatenate` | server/main.py:222-253 | the datagrams sent and the senders heard for two runs of buffers processed one after the other are those of the joined run, so a flush and the sweep that follows form one run |
| `Server.ProcessAll` | server/main.py:246-253 | each handed-on buffer is recognised and processed exactly once, in order: the command log gains one row per buffer, for its sender, holding that buffer's outcome; the audio buffers are left alone, rows are only added, every sender gets a row and power stays consistent with colour |
| `Server.ProcessAllEffects` | server/main.py:246-253 | processing handed-on buffers sends exactly the colour commands of the recognised ones, in order, each to its sender's control port; it changes no device row but the senders'; it changes the energy state only for the senders heard giving a colour, removes no energy entry and leaves each such sender with one; the energy log gains at most one row per datagram sent, each for such a sender; when nothing is sent, the energy state and energy log do not change |
| `Server.ReceiveAudio` | server/main.py:225-240 | receiving a datagram updates the buffers exactly as `Ingest` does; a size-triggered flush is recognised at once, logs one command row and sends at most its colour command to the sender; without a flush, or with a flush that yields no colour, nothing is sent and the energy state and log are untouched; a new sender gets a row holding its address; the server invariant is kept |
| `Server.ReceiveAudioConfined` | server/main.py:225-240 | receiving a datagram changes no device row but the sender's; the energy state and energy log change only for the sender, and only if its flush is heard giving a colour, the energy log gaining at most one row |
| `Server.SweepAudio` | server/main.py:245-255 | the sweep step updates the buffers exactly as `Sweep` does; each swept buffer of more than 16000 bytes, in iteration order, logs one command row and sends at most its colour command; no device row changes but the swept senders'; the energy state changes only for swept senders heard giving a colour, and the energy log gains at most one row per datagram sent, each for such a sender; the server invariant is kept |
| `Server.AudioIteration` | server/main.py:222-257 | one loop iteration leaves the buffers exactly as `Ingest` followed by `Sweep` does and keeps the server invariant (senders listed once, buffers under 96000 bytes, power consistent with colour, every sender has a device row); afterwards no retained sender is timed out, and only the datagram's sender can be new; the command log gains one row for a size-triggered flush, then one per swept buffer; the datagrams sent are those of the flush followed by the swept buffers; no device row changes but the datagram's sender's and the swept senders'; the energy state and energy log change only for the senders of that run heard giving a colour, the log by at most one row per datagram sent |
| `Server.ReceiveThenSweep` | server/main.py:222-255 | when a datagram arrives, the iteration logs the size-triggered flush, if any, then one row per swept buffer; flush and swept buffers form one run, whose colour commands are exactly what is sent; no device row changes but the datagram's sender's and the swept senders'; the energy state and energy log change only for the senders of the run heard giving a colour, the log by at most one row per datagram sent |
| `Server.StatusReceived` | server/main.py:266-285 | at most 128 characters are read. A message starting with `STATUS:` sets only the sender's colour column to the text after the first `:`; any other message changes nothing; the energy state, logs, buffers and sent datagrams are never touched |
| `Server.ManualControl` | server/main.py:308-355 | an unknown device, then a colour outside the seven after upper-casing, is rejected with nothing changed. Otherwise `COLOR_<c>` goes to the device's recorded address; the energy interval closes with the upper-cased colour, which becomes that device's colour column, its address and every other row unchanged; the command is logged as `Manual: <colour>` |

## Left out

- Sockets, threads and the sleep between loop iterations are not modelled. Each handler is one atomic step. The shared energy simulator is used by the audio thread and the HTTP handler without a lock; those races are not modelled.
- Speech recognition and audio playback are foreign services and devices. The recogniser's result is a parameter; playback is omitted.
- WebSocket broadcasts (`command_executed`, `command_failed`, `status_update`) and the other HTTP endpoints only relay data. They are omitted.
- The `last_seen` and `status` columns, the timestamp columns and the statistics queries of the database are timestamps and SQL reporting. They are omitted; the devices table keeps only address and colour.
- Wall-clock time is an integer millisecond parameter. The source reads the clock separately for the ingest, the sweep and the energy update; the model uses one value per step.
- `Segmenter.Sweep`: every sender is judged against one `now`. The source reads the clock again for each sender (server/main.py:247), after the recognition of every earlier swept sender has finished, so a sender that was not yet idle when the pass began can still be swept later in the same pass. The model does not show that.
- `Server.ProcessUtterance`: the energy interval is closed at the `now` of the step, which is the datagram's arrival time for a size-triggered flush and the sweep time for a swept buffer. The source reads the clock inside the energy update (server/energy_simulator.py:30), after recognition has finished, so its sample durations include the recognition time.
- `Server.ProcessAllEffects`: for a run of buffers, the energy log's growth is stated as a bound: at most one row per datagram sent, each for a sender heard giving a colour. The exact rows depend on the energy state carried from buffer to buffer, so they are stated one step at a time, by `Server.ProcessUtterance`. The same bound is used by `Server.ReceiveAudioConfined`, `Server.SweepAudio`, `Server.ReceiveThenSweep` and `Server.AudioIteration`.
- Floating point: power and time are exact integers. `Energy.EnergyWh` uses exact reals, not IEEE doubles.
- `Text.Lower`, `Text.Upper`: only ASCII letters change case. Python's Unicode case mapping (for example `ß` upper-casing to `SS`) is not modelled.
- `Server.StatusReceived`: the 128-byte receive limit is applied to characters, which matches bytes only for ASCII. A datagram that is not valid UTF-8 is dropped by the source's exception handler; here messages are already text.
- Database and socket failures are not modelled: no handler here can fail. In the source, the audio loop catches only `BlockingIOError` (server/main.py:242-243), and the sweep's call to `process_audio_buffer` (server/main.py:251) is outside any `try`. So any other exception in an audio-loop iteration ends the audio thread for good. Such exceptions can come from `upsert_device` (server/main.py:132, 231), from `sendto` (server/main.py:176) or from the database calls at server/main.py:180-190. `Server.AudioIteration` has no such stop. The status loop instead catches and logs every exception (server/main.py:289-290).

=== FILE: commands.dfy ===
/**
 * The seven-colour vocabulary of the server, the keyword interpreter applied
 * to recognised speech, the `COLOR_<NAME>` control datagrams and the colour
 * validation of the manual control endpoint.
 */
module Commands {
  import opened Wrappers
  import opened Text

  /** A colour the LED can be set to; `Off` is a colour like the others. */
  datatype Colour = Red | Green | Blue | White | Off | Purple | Yellow

  /** The upper-case name the server logs, stores and puts in wire commands. */
  function Name(c: Colour): string {
    match c
    case Red => "RED"
    case Green => "GREEN"
    case Blue => "BLUE"
    case White => "WHITE"
    case Off => "OFF"
    case Purple => "PURPLE"
    case Yellow => "YELLOW"
  }

  /** Colour names are already upper case. */
  lemma UpperOfName(c: Colour)
    ensures Upper(Name(c)) == Name(c)
  {
  }

  /** The control datagram payload for a colour. */
  function Wire(c: Colour): string {
    "COLOR_" + Name(c)
  }

  /** Distinct colours are sent as distinct datagrams, each `COLOR_` followed
      by the colour's name. */
  lemma WireInjective(c: Colour, d: Colour)
    requires Wire(c) == Wire(d)
    ensures c == d
    ensures Wire(c)[..6] == "COLOR_" && Wire(c)[6..] == Name(c)
  {
  }

  // ---------------------------------------------------------------------
  // Manual control: the seven-entry `color_commands` table
  // ---------------------------------------------------------------------

  /** Looks a name up in the table of seven colour names (exact match). */
  function FromName(name: string): (r: Option<Colour>)
    ensures forall c :: r == Some(c) <==> Name(c) == name
    ensures r.None? <==> forall c :: Name(c) != name
  {
    if name == "RED" then Some(Red)
    else if name == "GREEN" then Some(Green)
    else if name == "BLUE" then Some(Blue)
    else if name == "WHITE" then Some(White)
    else if name == "OFF" then Some(Off)
    else if name == "PURPLE" then Some(Purple)
    else if name == "YELLOW" then Some(Yellow)
    else None
  }

  /** The colour a manual request names, compared after upper-casing; None
      is the "Invalid color" rejection. */
  function ManualColour(requested: string): (r: Option<Colour>)
    ensures forall c :: r == Some(c) <==> Upper(requested) == Name(c)
    ensures r.None? <==> forall c :: Name(c) != Upper(requested)
  {
    FromName(Upper(requested))
  }

  /** Every colour is accepted by the manual endpoint whatever the case of
      its letters: lower case, or any mixture. */
  lemma ManualAcceptsAnyCase(c: Colour, requested: string)
    requires |requested| == |Name(c)|
    requires forall i :: 0 <= i < |requested| ==>
               requested[i] == Name(c)[i] || requested[i] == LowerChar(Name(c)[i])
    ensures ManualColour(requested) == Some(c)
  {
  }

  // ---------------------------------------------------------------------
  // Voice interpreter
  // ---------------------------------------------------------------------

  /** The order in which the interpreter tries colours. */
  const Priority: seq<Colour> := [Red, Green, Blue, White, Off, Purple, Yellow]

  /** A colour's position in `Priority`. */
  function Rank(c: Colour): nat {
    match c
    case Red => 0
    case Green => 1
    case Blue => 2
    case White => 3
    case Off => 4
    case Purple => 5
    case Yellow => 6
  }

  /** The (already lower-cased) text contains one of the phrases that
      select `c`: the colour's own name, and for white "light on", for off
      "light off" or "turn off". */
  predicate Mentions(lower: string, c: Colour) {
    match c
    case Red => Contains(lower, "red")
    case Green => Contains(lower, "green")
    case Blue => Contains(lower, "blue")
    case White => Contains(lower, "white") || Contains(lower, "light on")
    case Off => Contains(lower, "light off") || Contains(lower, "turn off")
    case Purple => Contains(lower, "purple")
    case Yellow => Contains(lower, "yellow")
  }

  /** The first rule, in list order, whose colour satisfies `hit`. */
  function FirstMatch(hit: Colour -> bool, rules: seq<Colour>): (r: Option<Colour>)
    ensures r.None? <==> forall i :: 0 <= i < |rules| ==> !hit(rules[i])
    ensures r.Some? ==> exists j :: 0 <= j < |rules| && rules[j] == r.value && hit(rules[j])
                                    && forall i :: 0 <= i < j ==> !hit(rules[i])
    decreases |rules|
  {
    if |rules| == 0 then None
    else if hit(rules[0]) then Some(rules[0])
    else
      var r := FirstMatch(hit, rules[1..]);
      assert forall i :: 1 <= i < |rules| ==> rules[i] == rules[1..][i - 1];
      r
  }

  /** `Rank` is the position in `Priority`. */
  lemma AtRank(c: Colour)
    ensures |Priority| == 7 && Priority[Rank(c)] == c
  {
  }

  lemma RankAt(i: nat)
    requires i < 7
    ensures Rank(Priority[i]) == i
  {
  }

  /** A colour the `Priority` rules pick satisfies `hit`, and no
      lower-ranked colour does. */
  lemma FirstMatchByRankSound(hit: Colour -> bool, c: Colour)
    requires FirstMatch(hit, Priority) == Some(c)
    ensures hit(c) && forall d :: Rank(d) < Rank(c) ==> !hit(d)
  {
    AtRank(c);
    var j :| 0 <= j < |Priority| && Priority[j] == c && hit(Priority[j])
             && forall i :: 0 <= i < j ==> !hit(Priority[i]);
    RankAt(j);
    forall d | Rank(d) < Rank(c) ensures !hit(d) {
      MissedBelow(hit, j, d);
    }
  }

  /** When no rule before position `j` is hit, no colour ranked below `j`
      is hit. */
  lemma MissedBelow(hit: Colour -> bool, j: nat, d: Colour)
    requires j <= |Priority| && forall i :: 0 <= i < j ==> !hit(Priority[i])
    requires Rank(d) < j
    ensures !hit(d)
  {
    AtRank(d);
  }

  /** The lowest-ranked colour satisfying `hit` is the one the `Priority`
      rules pick. */
  lemma FirstMatchByRankComplete(hit: Colour -> bool, c: Colour)
    requires hit(c) && forall d :: Rank(d) < Rank(c) ==> !hit(d)
    ensures FirstMatch(hit, Priority) == Some(c)
  {
    var r := FirstMatch(hit, Priority);
    AtRank(c);
    assert r.Some?;
    var j :| 0 <= j < |Priority| && Priority[j] == r.value && hit(Priority[j])
             && forall i :: 0 <= i < j ==> !hit(Priority[i]);
    RankAt(j);
    assert j <= Rank(c);
    assert j == Rank(c);
  }

  /** Trying the rules in `Priority` order picks the lowest-ranked colour
      that satisfies `hit`. */
  lemma FirstMatchByRank(hit: Colour -> bool)
    ensures FirstMatch(hit, Priority).None? <==> forall c :: !hit(c)
    ensures forall c :: FirstMatch(hit, Priority) == Some(c) <==>
              hit(c) && forall d :: Rank(d) < Rank(c) ==> !hit(d)
  {
    var r := FirstMatch(hit, Priority);
    forall c ensures r == Some(c) <==> hit(c) && forall d :: Rank(d) < Rank(c) ==> !hit(d) {
      if r == Some(c) {
        FirstMatchByRankSound(hit, c);
      }
      if hit(c) && forall d :: Rank(d) < Rank(c) ==> !hit(d) {
        FirstMatchByRankComplete(hit, c);
      }
    }
    if r.None? {
      forall c ensures !hit(c) {
        AtRank(c);
      }
    }
  }

  /**
   * The colour a recognised utterance asks for: the text is lower-cased and
   * the colour chosen is the highest-priority one it mentions, whatever the
   * position of the phrases in the text. None when no phrase occurs.
   */
  function Interpret(text: string): (r: Option<Colour>)
    ensures r.None? <==> forall c :: !Mentions(Lower(text), c)
    ensures forall c :: r == Some(c) <==>
              Mentions(Lower(text), c) && forall d :: Rank(d) < Rank(c) ==> !Mentions(Lower(text), d)
  {
    var lower := Lower(text);
    var hit := c => Mentions(lower, c);
    FirstMatchByRank(hit);
    FirstMatch(hit, Priority)
  }

  /** The interpreter as the server writes it: a chain of substring tests. */
  function InterpretChain(text: string): Option<Colour> {
    var t := Lower(text);
    if Contains(t, "red") then Some(Red)
    else if Contains(t, "green") then Some(Green)
    else if Contains(t, "blue") then Some(Blue)
    else if Contains(t, "white") || Contains(t, "light on") then Some(White)
    else if Contains(t, "light off") || Contains(t, "turn off") then Some(Off)
    else if Contains(t, "purple") then Some(Purple)
    else if Contains(t, "yellow") then Some(Yellow)
    else None
  }

  /** The priority-list interpreter and the substring chain agree on every text. */
  lemma InterpretIsChain(text: string)
    ensures Interpret(text) == InterpretChain(text)
  {
  }

  /** "red" anywhere in the text wins over every other phrase, "turn off" included. */
  lemma RedWins(text: string)
    requires Contains(Lower(text), "red")
    ensures Interpret(text) == Some(Red)
  {
  }
}

=== FILE: control.dfy ===
/**
 * The two small codecs of the control channel: the device identifier the
 * server derives from a sender's IP address (and the reverse mapping the
 * manual endpoint applies), and the `STATUS:` report a device sends back.
 */
module Control {
  import opened Wrappers
  import opened Text

  const DevicePrefix: string := "esp32_"
  const StatusPrefix: string := "STATUS:"

  /** The device id of a sender: `esp32_` then its IP with every `.` made `_`. */
  function DeviceIdOf(ip: string): (id: string)
    ensures |id| == |DevicePrefix| + |ip|
    ensures StartsWith(id, DevicePrefix)
    ensures forall i :: |DevicePrefix| <= i < |id| ==> id[i] != '.'
  {
    DevicePrefix + ReplaceChar(ip, '.', '_')
  }

  /** The address the manual endpoint sends to, given the address column of a
      device row: a value starting with `esp32_` has every `esp32_` removed
      and every `_` turned back into `.`; any other value is used as is. */
  function AddressOf(stored: string): string {
    if StartsWith(stored, DevicePrefix) then ReplaceChar(RemoveAll(stored, DevicePrefix), '_', '.')
    else stored
  }

  /** An IPv4 address in text form uses only digits and dots. */
  predicate IsDottedDigits(ip: string) {
    forall i :: 0 <= i < |ip| ==> ip[i] == '.' || '0' <= ip[i] <= '9'
  }

  /** For a dotted-digit address, the reverse mapping recovers the address
      from its device id. */
  lemma {:induction false} DeviceIdRoundTrip(ip: string)
    requires IsDottedDigits(ip)
    ensures AddressOf(DeviceIdOf(ip)) == ip
  {
    var tail := ReplaceChar(ip, '.', '_');
    var id := DevicePrefix + tail;
    assert StartsWith(id, DevicePrefix);
    assert id[|DevicePrefix|..] == tail;
    assert RemoveAll(id, DevicePrefix) == RemoveAll(tail, DevicePrefix);
    RemoveAllAbsent(tail, DevicePrefix);
    assert ReplaceChar(tail, '_', '.') == ip;
  }

  /** Dotted-digit addresses get distinct device ids. */
  lemma DeviceIdInjective(a: string, b: string)
    requires IsDottedDigits(a) && IsDottedDigits(b)
    requires DeviceIdOf(a) == DeviceIdOf(b)
    ensures a == b
  {
  }

  /** A stored dotted-digit address is sent to unchanged. */
  lemma AddressOfPlainIp(ip: string)
    requires IsDottedDigits(ip)
    ensures AddressOf(ip) == ip
  {
    assert !StartsWith(ip, DevicePrefix) by {
      if |ip| > 0 {
        assert ip[0] != DevicePrefix[0];
      }
    }
  }

  /** The colour text of a status report: everything after the first `:` of
      a message starting with `STATUS:`; None for any other message. */
  function ParseStatus(msg: string): (r: Option<string>)
    ensures r.Some? <==> StartsWith(msg, StatusPrefix)
    ensures r.Some? ==> msg == StatusPrefix + r.value
  {
    if StartsWith(msg, StatusPrefix) then
      var body := msg[|StatusPrefix|..];
      assert msg == "STATUS" + [':'] + body;
      AfterFirstPast("STATUS", ':', body);
      AfterFirst(msg, ':')
    else None
  }

  /** A status report carries its colour text verbatim, colons included. */
  lemma StatusRoundTrip(colour: string)
    ensures ParseStatus(StatusPrefix + colour) == Some(colour)
  {
  }
}

=== FILE: energy.dfy ===
/**
 * The energy simulator: the last colour, power and update time of each
 * device, and the sample of the interval that each colour change closes.
 *
 * Power is in integer milliwatts (66 mW is the simulator's 0.066 W) and time
 * in integer milliseconds, so every figure is exact.
 */
module Energy {
  import opened Wrappers
  import opened Text
  import opened Commands

  type DeviceId = string

  /** The colour last set on a device, when it was set, and its power draw. */
  datatype DevState = DevState(colour: string, lastUpdate: int, powerMw: nat)

  type States = map<DeviceId, DevState>

  /** The interval a colour change closes: the colour and power that held
      during it, its length, and when it began. */
  datatype Sample = Sample(device: DeviceId, colour: string, powerMw: nat, durationMs: int, start: int)

  datatype UpdateResult = UpdateResult(states: States, sample: Option<Sample>)

  /** What the simulator reports for a device; `lastUpdate` is None for a
      device it has never seen. */
  datatype View = View(colour: string, powerMw: nat, lastUpdate: Option<int>)

  /** Milliwatts drawn per lit die of the RGB LED (20 mA at 3.3 V). */
  const DieMw: nat := 66

  /** The power table, keyed by upper-case colour name. */
  const PowerTable: map<string, nat> :=
    map["RED" := 66, "GREEN" := 66, "BLUE" := 66, "WHITE" := 198,
        "PURPLE" := 132, "YELLOW" := 132, "OFF" := 0]

  /** Power drawn in a colour; the name is upper-cased first and a colour
      missing from the table draws nothing. */
  function PowerMw(colour: string): (p: nat)
    ensures Upper(colour) !in PowerTable ==> p == 0
    ensures p % DieMw == 0 && p <= 3 * DieMw
  {
    var key := Upper(colour);
    if key in PowerTable then PowerTable[key] else 0
  }

  /** The dies of the RGB LED that a colour lights. */
  datatype Die = R | G | B

  function Dies(c: Colour): set<Die> {
    match c
    case Red => {R}
    case Green => {G}
    case Blue => {B}
    case White => {R, G, B}
    case Purple => {R, B}
    case Yellow => {R, G}
    case Off => {}
  }

  /** Each palette colour draws 66 mW per die it lights: 66 for red, green
      and blue, 132 for purple and yellow, 198 for white, 0 for off. */
  lemma PowerPerDie(c: Colour)
    ensures PowerMw(Name(c)) == DieMw * |Dies(c)|
  {
    UpperOfName(c);
  }

  /** The table lookup ignores case. */
  lemma PowerIgnoresCase(colour: string)
    ensures PowerMw(colour) == PowerMw(Upper(colour))
  {
    UpperIdempotent(colour);
  }

  /** The state a device is registered in on its first update. */
  function FirstSeen(now: int): DevState {
    DevState("OFF", now, 0)
  }

  /**
   * A colour change on `id` at time `now`. A device seen for the first time
   * is only registered, as OFF drawing nothing since `now`, and no sample is
   * returned; the requested colour is not recorded. Otherwise the device
   * takes `newColour` (as given) and its power from the table, and the
   * sample of the interval just ended carries the previous colour and power,
   * starts at the previous update and lasts until `now`. No other device is
   * affected.
   */
  function Update(s: States, id: DeviceId, newColour: string, now: int): (r: UpdateResult)
    ensures r.states.Keys == s.Keys + {id}
    ensures forall d :: d in s && d != id ==> r.states[d] == s[d]
    ensures id !in s ==> r.sample.None? && r.states[id] == DevState("OFF", now, 0)
    ensures id in s ==> r.states[id] == DevState(newColour, now, PowerMw(newColour))
    ensures id in s ==> r.sample == Some(Sample(id, s[id].colour, s[id].powerMw, now - s[id].lastUpdate, s[id].lastUpdate))
  {
    if id !in s then
      UpdateResult(s[id := FirstSeen(now)], None)
    else
      var prev := s[id];
      UpdateResult(s[id := DevState(newColour, now, PowerMw(newColour))],
                   Some(Sample(id, prev.colour, prev.powerMw, now - prev.lastUpdate, prev.lastUpdate)))
  }

  /** Every stored power is the table's power for the stored colour. */
  ghost predicate Consistent(s: States) {
    forall id :: id in s ==> s[id].powerMw == PowerMw(s[id].colour)
  }

  /** Updates keep stored power in step with stored colour, so every sample
      carries the power of the colour it names. */
  lemma UpdateKeepsConsistent(s: States, id: DeviceId, newColour: string, now: int)
    requires Consistent(s)
    ensures Consistent(Update(s, id, newColour, now).states)
    ensures Update(s, id, newColour, now).sample.Some? ==>
              var smp := Update(s, id, newColour, now).sample.value;
              smp.powerMw == PowerMw(smp.colour)
  {
    UpperOfName(Off);
  }

  /** Power drawn by a device now; 0 for a device never seen. */
  function CurrentPower(s: States, id: DeviceId): (p: nat)
    ensures id !in s ==> p == 0
    ensures Consistent(s) && id in s ==> p == PowerMw(s[id].colour)
  {
    if id in s then s[id].powerMw else 0
  }

  /** A copy of the device's state; OFF, 0 and no time for a device never seen. */
  function DeviceState(s: States, id: DeviceId): (v: View)
    ensures id !in s ==> v == View("OFF", 0, None)
    ensures id in s ==> v.colour == s[id].colour && v.powerMw == s[id].powerMw
                        && v.lastUpdate == Some(s[id].lastUpdate)
  {
    if id in s then View(s[id].colour, s[id].powerMw, Some(s[id].lastUpdate))
    else View("OFF", 0, None)
  }

  /** After a later update the device reports the new colour and its power. */
  lemma UpdateThenQuery(s: States, id: DeviceId, newColour: string, now: int)
    requires id in s
    ensures CurrentPower(Update(s, id, newColour, now).states, id) == PowerMw(newColour)
    ensures DeviceState(Update(s, id, newColour, now).states, id) == View(newColour, PowerMw(newColour), Some(now))
  {
  }

  /** The energy of a sample in watt-hours: W times seconds over 3600. */
  function EnergyWh(powerMw: nat, durationMs: int): (e: real)
    ensures durationMs >= 0 ==> e >= 0.0
    ensures e == 0.0 <==> powerMw == 0 || durationMs == 0
  {
    (powerMw as real / 1000.0) * (durationMs as real / 1000.0) / 3600.0
  }

  /** Splitting an interval at constant power splits its energy: the two
      logged parts add up to the energy of the whole. */
  lemma EnergySplits(powerMw: nat, first: int, second: int)
    ensures EnergyWh(powerMw, first) + EnergyWh(powerMw, second) == EnergyWh(powerMw, first + second)
  {
  }

  /** One hour at 1000 mW is one watt-hour. */
  lemma OneWattHour()
    ensures EnergyWh(1000, 3600000) == 1.0
  {
  }

  // ---------------------------------------------------------------------
  // Runs of updates on one device
  // ---------------------------------------------------------------------

  /** A requested colour and the time of the request. */
  datatype Change = Change(colour: string, at: int)

  datatype RunResult = RunResult(states: States, samples: seq<Sample>)

  /** Applies `changes` to device `id` in order, collecting the samples. */
  function UpdateAll(s: States, id: DeviceId, changes: seq<Change>): (r: RunResult)
    ensures id in r.states || |changes| == 0
    decreases |changes|
  {
    if |changes| == 0 then RunResult(s, [])
    else
      var u := Update(s, id, changes[0].colour, changes[0].at);
      var rest := UpdateAll(u.states, id, changes[1..]);
      var first := if u.sample.Some? then [u.sample.value] else [];
      RunResult(rest.states, first + rest.samples)
  }

  function TotalDuration(samples: seq<Sample>): int
    decreases |samples|
  {
    if |samples| == 0 then 0 else samples[0].durationMs + TotalDuration(samples[1..])
  }

  /** For a device already known, each change yields one sample, sample `i`
      is the interval from the previous change (or the known state) to
      change `i`, in the colour set before it, and the durations add up to
      the time from the known state to the last change. */
  lemma {:induction false} TilingKnown(s: States, id: DeviceId, changes: seq<Change>)
    requires id in s && |changes| > 0
    ensures var r := UpdateAll(s, id, changes);
            && |r.samples| == |changes|
            && TotalDuration(r.samples) == changes[|changes| - 1].at - s[id].lastUpdate
            && r.samples[0].colour == s[id].colour && r.samples[0].start == s[id].lastUpdate
            && (forall i :: 1 <= i < |changes| ==>
                  r.samples[i].colour == changes[i - 1].colour && r.samples[i].start == changes[i - 1].at
                  && r.samples[i].durationMs == changes[i].at - changes[i - 1].at)
    decreases |changes|
  {
    var u := Update(s, id, changes[0].colour, changes[0].at);
    var r := UpdateAll(s, id, changes);
    var first := [u.sample.value];
    var rest := UpdateAll(u.states, id, changes[1..]);
    assert r.samples == first + rest.samples;
    if |changes| > 1 {
      TilingKnown(u.states, id, changes[1..]);
      assert r.samples[1..] == rest.samples;
      forall i | 1 <= i < |changes|
        ensures r.samples[i].colour == changes[i - 1].colour && r.samples[i].start == changes[i - 1].at
                && r.samples[i].durationMs == changes[i].at - changes[i - 1].at
      {
        assert r.samples[i] == rest.samples[i - 1];
        if i > 1 {
          assert changes[1..][i - 1] == changes[i] && changes[1..][i - 2] == changes[i - 1];
        }
      }
    } else {
      assert rest.samples == [];
    }
  }

  /** Tiling: for a device first seen at the first of the changes at
      t1..tn, the first change yields no sample and the n-1 samples that
      follow cover t1..tn without gap or overlap, so their durations add up
      to tn - t1. The first interval is attributed to OFF at 0 mW whatever
      colour the first change asked for. */
  lemma {:induction false} Tiling(s: States, id: DeviceId, changes: seq<Change>)
    requires id !in s && |changes| > 0
    ensures var r := UpdateAll(s, id, changes);
            && |r.samples| == |changes| - 1
            && TotalDuration(r.samples) == changes[|changes| - 1].at - changes[0].at
            && (|changes| > 1 ==> r.samples[0].colour == "OFF" && r.samples[0].powerMw == 0)
  {
    var u := Update(s, id, changes[0].colour, changes[0].at);
    var r := UpdateAll(s, id, changes);
    assert r.samples == UpdateAll(u.states, id, changes[1..]).samples;
    if |changes| > 1 {
      TilingKnown(u.states, id, changes[1..]);
    }
  }
}

=== FILE: segmenter.dfy ===
/**
 * The per-address audio buffers of the audio listener loop. Each datagram is
 * appended to its sender's buffer; a buffer that reaches three seconds of
 * audio is handed on at once, and a sender silent for more than a second is
 * swept: its buffer is handed on if it holds more than half a second of
 * audio, discarded otherwise, and its entry removed either way.
 *
 * Time is an integer number of milliseconds supplied by the caller.
 */
module Segmenter {
  import opened Wrappers

  type byte = b: int | 0 <= b < 256

  const SampleRate: nat := 16000
  const SampleWidth: nat := 2
  const Channels: nat := 1
  /** Bytes of 16-bit mono PCM per second of audio: 32000. */
  const BytesPerSecond: nat := SampleRate * SampleWidth * Channels
  /** Three seconds of audio, 96000 bytes: the size-triggered flush threshold. */
  const TargetBufferSize: nat := BytesPerSecond * 3
  /** A sender silent for strictly longer than this is swept. */
  const PacketTimeoutMs: nat := 1000
  /** Half a second of audio, 16000 bytes: a swept buffer must be strictly
      longer to be processed. */
  const MinUtteranceBytes: nat := BytesPerSecond / 2
  /** The receive size of the audio socket. */
  const MaxDatagram: nat := 2048

  /** A UDP sender: IP text and port. */
  datatype Addr = Addr(ip: string, port: int)

  /** One sender's accumulated audio and the time of its latest datagram. */
  datatype Entry = Entry(buffer: seq<byte>, lastPacket: int)

  /** The buffers, with the senders in the order the dictionary iterates them
      (first insertion first). */
  datatype Buffers = Buffers(order: seq<Addr>, entries: map<Addr, Entry>)

  /** A buffer handed on for recognition, with its sender. */
  datatype Utterance = Utterance(from: Addr, audio: seq<byte>)

  /** A datagram as it arrives, with its arrival time. */
  datatype Packet = Packet(from: Addr, data: seq<byte>, at: int)

  datatype IngestResult = IngestResult(buffers: Buffers, flushed: Option<seq<byte>>)
  /** The buffers after a step, and the utterances the step handed on, in
      the order they were handed on. */
  datatype Handoff = Handoff(buffers: Buffers, ready: seq<Utterance>)


  /** No sender occurs twice in `s`. */
  ghost predicate Distinct(s: seq<Addr>)
    decreases |s|
  {
    |s| == 0 || (s[0] !in s[1..] && Distinct(s[1..]))
  }

  lemma {:induction false} DistinctAppend(s: seq<Addr>, a: Addr)
    requires Distinct(s) && a !in s
    ensures Distinct(s + [a])
    decreases |s|
  {
    if |s| > 0 {
      assert (s + [a])[1..] == s[1..] + [a];
      DistinctAppend(s[1..], a);
    }
  }

  /** `s` is `t` with some elements left out: the elements of `s` occur in
      `t` in the same relative order. */
  ghost predicate InOrderWithin(s: seq<Addr>, t: seq<Addr>)
    decreases |t|
  {
    |s| == 0
    || (|t| > 0 && ((s[0] == t[0] && InOrderWithin(s[1..], t[1..])) || InOrderWithin(s, t[1..])))
  }

  /** The senders of a run of utterances, in order. */
  function SendersOf(us: seq<Utterance>): (r: seq<Addr>)
    ensures |r| == |us|
    ensures forall i :: 0 <= i < |us| ==> r[i] == us[i].from
  {
    seq(|us|, i requires 0 <= i < |us| => us[i].from)
  }

  /** `order` lists every sender that has an entry, each exactly once. */
  ghost predicate Valid(b: Buffers) {
    Distinct(b.order) && forall a :: a in b.entries <==> a in b.order
  }

  /** Between loop iterations every retained buffer is shorter than the target. */
  ghost predicate Bounded(b: Buffers) {
    forall a :: a in b.entries ==> |b.entries[a].buffer| < TargetBufferSize
  }

  predicate TimedOut(e: Entry, now: int) {
    now - e.lastPacket > PacketTimeoutMs
  }

  predicate Viable(e: Entry) {
    |e.buffer| > MinUtteranceBytes
  }

  /** The bytes `recvfrom(2048)` delivers of a datagram: a longer one is
      truncated to its first 2048 bytes. */
  function Receive(raw: seq<byte>): (d: seq<byte>)
    ensures |d| <= MaxDatagram && |d| <= |raw|
    ensures d == raw[..|d|]
    ensures |d| == |raw| || |d| == MaxDatagram
  {
    if |raw| <= MaxDatagram then raw else raw[..MaxDatagram]
  }

  /** The audio held for `addr`; nothing for an unseen sender. */
  function Pending(b: Buffers, addr: Addr): seq<byte> {
    if addr in b.entries then b.entries[addr].buffer else []
  }

  /**
   * One datagram from `addr` at time `now`. An unseen sender is added with
   * an empty buffer at the end of the iteration order; the bytes are appended
   * and the sender's time set to `now`; if the buffer then holds at least
   * `TargetBufferSize` bytes it is returned whole and the buffer emptied,
   * the entry being kept.
   */
  function Ingest(b: Buffers, addr: Addr, raw: seq<byte>, now: int): (r: IngestResult)
    requires Valid(b)
    ensures Valid(r.buffers)
    ensures r.buffers.entries.Keys == b.entries.Keys + {addr}
    ensures r.buffers.order == if addr in b.entries then b.order else b.order + [addr]
    ensures forall a :: a in b.entries && a != addr ==> r.buffers.entries[a] == b.entries[a]
    ensures r.buffers.entries[addr].lastPacket == now
    ensures r.flushed.Some? <==> |Pending(b, addr)| + |Receive(raw)| >= TargetBufferSize
    ensures r.flushed.GetOr([]) + r.buffers.entries[addr].buffer == Pending(b, addr) + Receive(raw)
    ensures r.flushed.Some? ==> r.buffers.entries[addr].buffer == []
    ensures |r.buffers.entries[addr].buffer| < TargetBufferSize
    ensures Bounded(b) ==> Bounded(r.buffers)
    ensures Bounded(b) && r.flushed.Some? ==>
              TargetBufferSize <= |r.flushed.value| < TargetBufferSize + MaxDatagram
  {
    var order := if addr in b.entries then b.order else b.order + [addr];
    assert Distinct(order) by {
      if addr !in b.entries {
        DistinctAppend(b.order, addr);
      }
    }
    var arrived := Pending(b, addr) + Receive(raw);
    if |arrived| >= TargetBufferSize then
      IngestResult(Buffers(order, b.entries[addr := Entry([], now)]), Some(arrived))
    else
      IngestResult(Buffers(order, b.entries[addr := Entry(arrived, now)]), None)
  }

  /** The senders of `order` that are not timed out, in the same order. */
  function KeptFrom(entries: map<Addr, Entry>, order: seq<Addr>, now: int): (kept: seq<Addr>)
    requires forall a :: a in order ==> a in entries
    ensures forall a :: a in kept <==> a in order && !TimedOut(entries[a], now)
    ensures Distinct(order) ==> Distinct(kept)
    ensures InOrderWithin(kept, order)
    decreases |order|
  {
    if |order| == 0 then []
    else
      var rest := KeptFrom(entries, order[1..], now);
      assert forall x :: x in order[1..] ==> x in order;
      if TimedOut(entries[order[0]], now) then rest
      else
        assert Distinct(order) ==> order[0] !in order[1..];
        var kept := [order[0]] + rest;
        assert kept[1..] == rest;
        kept
  }

  /** The buffers of the timed-out senders of `order` that hold enough audio,
      in the order of `order`. */
  function ReadyFrom(entries: map<Addr, Entry>, order: seq<Addr>, now: int): (ready: seq<Utterance>)
    requires forall a :: a in order ==> a in entries
    ensures forall i :: 0 <= i < |ready| ==>
              ready[i].from in order && TimedOut(entries[ready[i].from], now)
              && Viable(entries[ready[i].from]) && ready[i].audio == entries[ready[i].from].buffer
    decreases |order|
  {
    if |order| == 0 then []
    else
      var a := order[0];
      var rest := ReadyFrom(entries, order[1..], now);
      assert forall x :: x in order[1..] ==> x in order;
      if TimedOut(entries[a], now) && Viable(entries[a]) then
        var ready := [Utterance(a, entries[a].buffer)] + rest;
        assert forall i :: 1 <= i < |ready| ==> ready[i] == rest[i - 1];
        ready
      else rest
  }

  /** Every timed-out sender of `order` with enough audio is handed on. */
  lemma {:induction false} ReadyFromComplete(entries: map<Addr, Entry>, order: seq<Addr>, now: int)
    requires forall a :: a in order ==> a in entries
    ensures forall a :: a in order && TimedOut(entries[a], now) && Viable(entries[a]) ==>
              a in SendersOf(ReadyFrom(entries, order, now))
    decreases |order|
  {
    if |order| > 0 {
      var a := order[0];
      var tail := order[1..];
      assert order == [a] + tail;
      assert forall x :: x in tail ==> x in order;
      ReadyFromComplete(entries, tail, now);
      var rest := ReadyFrom(entries, tail, now);
      var ready := ReadyFrom(entries, order, now);
      if TimedOut(entries[a], now) && Viable(entries[a]) {
        assert ready == [Utterance(a, entries[a].buffer)] + rest;
        assert SendersOf(ready) == [a] + SendersOf(rest);
      } else {
        assert ready == rest;
      }
    }
  }

  /** The sweep hands buffers on in the iteration order of their senders. */
  lemma {:induction false} ReadyFromInOrder(entries: map<Addr, Entry>, order: seq<Addr>, now: int)
    requires forall a :: a in order ==> a in entries
    ensures InOrderWithin(SendersOf(ReadyFrom(entries, order, now)), order)
    decreases |order|
  {
    if |order| > 0 {
      var a := order[0];
      var tail := order[1..];
      assert forall x :: x in tail ==> x in order;
      ReadyFromInOrder(entries, tail, now);
      var rest := ReadyFrom(entries, tail, now);
      var ready := ReadyFrom(entries, order, now);
      if TimedOut(entries[a], now) && Viable(entries[a]) {
        assert ready == [Utterance(a, entries[a].buffer)] + rest;
        var senders := SendersOf(ready);
        assert senders[0] == a;
        assert senders[1..] == SendersOf(rest);
      } else {
        assert ready == rest;
      }
    }
  }

  lemma ReadySendersIn(entries: map<Addr, Entry>, order: seq<Addr>, now: int)
    requires forall a :: a in order ==> a in entries
    ensures forall a :: a in SendersOf(ReadyFrom(entries, order, now)) ==> a in order
  {
  }

  /** Each sender is handed on at most once by a sweep. */
  lemma {:induction false} ReadyFromDistinct(entries: map<Addr, Entry>, order: seq<Addr>, now: int)
    requires forall a :: a in order ==> a in entries
    requires Distinct(order)
    ensures Distinct(SendersOf(ReadyFrom(entries, order, now)))
    decreases |order|
  {
    if |order| > 0 {
      var a := order[0];
      var tail := order[1..];
      assert forall x :: x in tail ==> x in order;
      assert a !in tail && Distinct(tail);
      ReadyFromDistinct(entries, tail, now);
      var rest := ReadyFrom(entries, tail, now);
      var ready := ReadyFrom(entries, order, now);
      if TimedOut(entries[a], now) && Viable(entries[a]) {
        assert ready == [Utterance(a, entries[a].buffer)] + rest;
        var senders := SendersOf(ready);
        assert senders[0] == a;
        assert senders[1..] == SendersOf(rest);
        ReadySendersIn(entries, tail, now);
      } else {
        assert ready == rest;
      }
    }
  }

  /**
   * The timeout sweep at time `now`: every sender silent for more than
   * `PacketTimeoutMs` loses its entry, and its buffer is handed on exactly
   * when it holds more than `MinUtteranceBytes`; every other entry is kept
   * unchanged, in the same order.
   */
  function Sweep(b: Buffers, now: int): (r: Handoff)
    requires Valid(b)
    ensures Valid(r.buffers)
    ensures forall a :: a in r.buffers.entries <==> a in b.entries && !TimedOut(b.entries[a], now)
    ensures forall a :: a in r.buffers.entries ==> r.buffers.entries[a] == b.entries[a]
    ensures forall i :: 0 <= i < |r.ready| ==>
              var a := r.ready[i].from;
              a in b.entries && TimedOut(b.entries[a], now) && Viable(b.entries[a])
              && r.ready[i].audio == b.entries[a].buffer
    ensures forall a :: a in b.entries && TimedOut(b.entries[a], now) && Viable(b.entries[a]) ==>
              a in SendersOf(r.ready)
    ensures InOrderWithin(r.buffers.order, b.order)
    ensures InOrderWithin(SendersOf(r.ready), b.order)
    ensures Bounded(b) ==> Bounded(r.buffers)
  {
    assert forall a :: a in b.order ==> a in b.entries;
    ReadyFromComplete(b.entries, b.order, now);
    ReadyFromInOrder(b.entries, b.order, now);
    var kept := KeptFrom(b.entries, b.order, now);
    var entries := map a | a in kept :: b.entries[a];
    assert entries.Keys == set a | a in kept;
    var ready := ReadyFrom(b.entries, b.order, now);
    Handoff(Buffers(kept, entries), ready)
  }

  /** A sweep hands each sender's buffer on at most once. */
  lemma SweepHandsOnOnce(b: Buffers, now: int)
    requires Valid(b)
    ensures Distinct(SendersOf(Sweep(b, now).ready))
  {
    assert forall a :: a in b.order ==> a in b.entries;
    ReadyFromDistinct(b.entries, b.order, now);
    assert Sweep(b, now).ready == ReadyFrom(b.entries, b.order, now);
  }

  /** The buffer a datagram from `addr` hands on by its size-triggered
      flush: a run of one buffer, or of none. */
  function HandedOn(ing: IngestResult, addr: Addr): (us: seq<Utterance>)
    ensures |us| <= 1
    ensures |us| == 1 <==> ing.flushed.Some?
    ensures forall i :: 0 <= i < |us| ==> us[i] == Utterance(addr, ing.flushed.value)
  {
    if ing.flushed.Some? then [Utterance(addr, ing.flushed.value)] else []
  }

  /** Feeds datagrams one by one through `Ingest`, collecting the
      size-triggered flushes in arrival order. */
  function IngestAll(b: Buffers, packets: seq<Packet>): (r: Handoff)
    requires Valid(b)
    ensures Valid(r.buffers)
    decreases |packets|
  {
    if |packets| == 0 then Handoff(b, [])
    else
      var p := packets[0];
      var step := Ingest(b, p.from, p.data, p.at);
      var rest := IngestAll(step.buffers, packets[1..]);
      Handoff(rest.buffers, HandedOn(step, p.from) + rest.ready)
  }

  /** However many datagrams arrive, every retained buffer stays under the
      target size. */
  lemma {:induction false} IngestAllBounded(b: Buffers, packets: seq<Packet>)
    requires Valid(b) && Bounded(b)
    ensures Bounded(IngestAll(b, packets).buffers)
    decreases |packets|
  {
    if |packets| > 0 {
      var p := packets[0];
      var step := Ingest(b, p.from, p.data, p.at);
      IngestAllBounded(step.buffers, packets[1..]);
      assert IngestAll(b, packets).buffers == IngestAll(step.buffers, packets[1..]).buffers;
    }
  }

  /** However many datagrams arrive, every size-triggered flush holds at
      least the target size and less than the target plus one datagram. */
  lemma {:induction false} IngestAllFlushSizes(b: Buffers, packets: seq<Packet>)
    requires Valid(b) && Bounded(b)
    ensures forall i :: 0 <= i < |IngestAll(b, packets).ready| ==>
              TargetBufferSize <= |IngestAll(b, packets).ready[i].audio| < TargetBufferSize + MaxDatagram
    decreases |packets|
  {
    if |packets| > 0 {
      var p := packets[0];
      var step := Ingest(b, p.from, p.data, p.at);
      assert Bounded(step.buffers);
      IngestAllFlushSizes(step.buffers, packets[1..]);
      var rest := IngestAll(step.buffers, packets[1..]);
      var r := IngestAll(b, packets);
      if step.flushed.Some? {
        var first := Utterance(p.from, step.flushed.value);
        assert TargetBufferSize <= |first.audio| < TargetBufferSize + MaxDatagram;
        assert r.ready == [first] + rest.ready;
        forall i | 0 <= i < |r.ready|
          ensures TargetBufferSize <= |r.ready[i].audio| < TargetBufferSize + MaxDatagram
        {
          if i > 0 {
            assert r.ready[i] == rest.ready[i - 1];
          }
        }
      } else {
        assert r.ready == rest.ready;
      }
    }
  }

  /** The received bytes of a run of datagrams, in arrival order. */
  function Arrivals(packets: seq<Packet>): seq<byte>
    decreases |packets|
  {
    if |packets| == 0 then [] else Receive(packets[0].data) + Arrivals(packets[1..])
  }

  /** The audio of a run of utterances, joined. */
  function AudioOf(us: seq<Utterance>): seq<byte>
    decreases |us|
  {
    if |us| == 0 then [] else us[0].audio + AudioOf(us[1..])
  }

  /** Sequence bookkeeping for one step of `IngestConserves`. */
  lemma Regroup(flushed: seq<byte>, buffered: seq<byte>, later: seq<byte>, left: seq<byte>,
                before: seq<byte>, received: seq<byte>, more: seq<byte>)
    requires flushed + buffered == before + received
    requires later + left == buffered + more
    ensures (flushed + later) + left == before + (received + more)
  {
    calc {
      (flushed + later) + left;
      flushed + (later + left);
      flushed + (buffered + more);
      (flushed + buffered) + more;
      (before + received) + more;
    }
  }

  lemma AudioOfPrepend(u: Utterance, us: seq<Utterance>)
    ensures AudioOf([u] + us) == u.audio + AudioOf(us)
  {
  }

  /** No audio is lost, duplicated or reordered by size-triggered flushing:
      for datagrams from one sender, the flushed audio followed by what is
      still buffered is exactly what was buffered before followed by every
      received byte, in arrival order. */
  lemma {:induction false} IngestConserves(b: Buffers, addr: Addr, packets: seq<Packet>)
    requires Valid(b)
    requires forall i :: 0 <= i < |packets| ==> packets[i].from == addr
    ensures AudioOf(IngestAll(b, packets).ready) + Pending(IngestAll(b, packets).buffers, addr)
            == Pending(b, addr) + Arrivals(packets)
    decreases |packets|
  {
    if |packets| > 0 {
      var p := packets[0];
      var step := Ingest(b, addr, p.data, p.at);
      var tail := packets[1..];
      var rest := IngestAll(step.buffers, tail);
      var r := IngestAll(b, packets);
      var flushed := step.flushed.GetOr([]);
      var buffered := step.buffers.entries[addr].buffer;
      assert flushed + buffered == Pending(b, addr) + Receive(p.data);
      assert AudioOf(rest.ready) + Pending(rest.buffers, addr) == buffered + Arrivals(tail) by {
        IngestConserves(step.buffers, addr, tail);
        assert Pending(step.buffers, addr) == buffered;
      }
      assert r.buffers == rest.buffers && AudioOf(r.ready) == flushed + AudioOf(rest.ready) by {
        assert p.from == addr;
        assert r == Handoff(rest.buffers, HandedOn(step, addr) + rest.ready);
        if step.flushed.Some? {
          assert HandedOn(step, addr) == [Utterance(addr, flushed)];
          AudioOfPrepend(Utterance(addr, flushed), rest.ready);
        } else {
          assert HandedOn(step, addr) + rest.ready == rest.ready;
        }
      }
      assert Arrivals(packets) == Receive(p.data) + Arrivals(tail);
      Regroup(flushed, buffered, AudioOf(rest.ready), Pending(rest.buffers, addr),
              Pending(b, addr), Receive(p.data), Arrivals(tail));
    }
  }
}

=== FILE: server.dfy ===
/**
 * The server's handlers, as pure steps over one state value: the audio
 * listener's loop iteration, the processing of a recognised utterance, the
 * status listener and the manual control endpoint.
 *
 * The devices table is abstracted as a map from device id to its address
 * column and colour column; the command and energy logs and the control
 * datagrams sent are kept as sequences in the order they are produced. The
 * speech recogniser is a parameter.
 */
module Server {
  import opened Wrappers
  import opened Text
  import opened Commands
  import opened Control
  import opened Segmenter
  import opened Energy

  const ControlPort: int := 12346
  /** The receive size of the control socket. */
  const MaxStatus: nat := 128

  /** The address column and the colour column of a devices-table row. */
  datatype DeviceRow = DeviceRow(ip: string, colour: string)

  type Devices = map<DeviceId, DeviceRow>

  /** A row of the command log. */
  datatype CommandRecord = CommandRecord(text: string, sent: string, device: DeviceId, success: bool)

  /** A row of the energy log. */
  datatype EnergyRecord = EnergyRecord(device: DeviceId, powerMw: nat, durationMs: int, energyWh: real, colour: string)

  /** A control datagram sent to a device. */
  datatype Datagram = Datagram(to: Addr, payload: string)

  /** What the speech recogniser makes of a buffer: text, "could not
      understand", or "service unreachable". */
  datatype Recognition = Heard(text: string) | Unintelligible | Unavailable

  datatype State = State(
    buffers: Buffers,
    energy: States,
    devices: Devices,
    commands: seq<CommandRecord>,
    energyLog: seq<EnergyRecord>,
    sent: seq<Datagram>)

  /** The reply of the manual control endpoint. */
  datatype Response = Accepted(device: DeviceId, colour: string) | Rejected(reason: string)

  datatype ManualResult = ManualResult(state: State, response: Response)

  /** Every sender with an audio buffer has a row in the devices table. */
  ghost predicate KnownSenders(st: State) {
    forall a :: a in st.buffers.entries ==> DeviceIdOf(a.ip) in st.devices
  }

  /** What holds of the server state between handler steps. */
  ghost predicate Invariant(st: State) {
    Valid(st.buffers) && Bounded(st.buffers) && Consistent(st.energy) && KnownSenders(st)
  }

  /** A step that leaves the buffers alone, only adds device rows and keeps
      power consistent with colour keeps the invariant. */
  lemma InvariantKept(st: State, r: State)
    requires Invariant(st) && r.buffers == st.buffers
    requires r.devices.Keys >= st.devices.Keys && Consistent(r.energy)
    ensures Invariant(r)
  {
  }

  // ---------------------------------------------------------------------
  // Devices table and energy log
  // ---------------------------------------------------------------------

  /** Inserts a device with colour OFF, or refreshes the address of an
      existing one keeping its colour. */
  function Upsert(devs: Devices, id: DeviceId, ip: string): (r: Devices)
    ensures r.Keys == devs.Keys + {id}
    ensures r[id] == DeviceRow(ip, if id in devs then devs[id].colour else "OFF")
    ensures forall d :: d in devs && d != id ==> r[d] == devs[d]
  {
    if id in devs then devs[id := devs[id].(ip := ip)] else devs[id := DeviceRow(ip, "OFF")]
  }

  /** Sets the colour column of an existing device; a missing device is
      left missing. */
  function SetColour(devs: Devices, id: DeviceId, colour: string): (r: Devices)
    ensures r.Keys == devs.Keys
    ensures id in devs ==> r[id] == DeviceRow(devs[id].ip, colour)
    ensures forall d :: d in devs && d != id ==> r[d] == devs[d]
  {
    if id in devs then devs[id := devs[id].(colour := colour)] else devs
  }

  /** Appends the energy-log row of a sample, if there is one. */
  function LogSample(log: seq<EnergyRecord>, sample: Option<Sample>): (r: seq<EnergyRecord>)
    ensures sample.None? ==> r == log
    ensures sample.Some? ==> r == log + [EnergyRecord(sample.value.device, sample.value.powerMw,
                                                     sample.value.durationMs,
                                                     EnergyWh(sample.value.powerMw, sample.value.durationMs),
                                                     sample.value.colour)]
  {
    match sample
    case None => log
    case Some(smp) => log + [EnergyRecord(smp.device, smp.powerMw, smp.durationMs,
                                          EnergyWh(smp.powerMw, smp.durationMs), smp.colour)]
  }

  /** Carries out a colour command for device `id` at address `ip`: sends
      the wire command, closes the energy interval, records the colour and
      logs the command as successful. */
  function Dispatch(st: State, id: DeviceId, ip: string, c: Colour, text: string, now: int): (r: State)
    ensures r.buffers == st.buffers
    ensures r.sent == st.sent + [Datagram(Addr(ip, ControlPort), Wire(c))]
    ensures r.energy == Update(st.energy, id, Name(c), now).states
    ensures r.energyLog == LogSample(st.energyLog, Update(st.energy, id, Name(c), now).sample)
    ensures r.devices == SetColour(st.devices, id, Name(c))
    ensures r.commands == st.commands + [CommandRecord(text, Wire(c), id, true)]
    ensures Confined(st, r, {id}, {id}, [Datagram(Addr(ip, ControlPort), Wire(c))])
    ensures Consistent(st.energy) ==> Consistent(r.energy)
  {
    var u := Update(st.energy, id, Name(c), now);
    assert Consistent(st.energy) ==> Consistent(u.states) by {
      if Consistent(st.energy) {
        UpdateKeepsConsistent(st.energy, id, Name(c), now);
      }
    }
    st.(sent := st.sent + [Datagram(Addr(ip, ControlPort), Wire(c))],
        energy := u.states,
        energyLog := LogSample(st.energyLog, u.sample),
        devices := SetColour(st.devices, id, Name(c)),
        commands := st.commands + [CommandRecord(text, Wire(c), id, true)])
  }

  // ---------------------------------------------------------------------
  // Processing one utterance
  // ---------------------------------------------------------------------

  /** The command-log row for a buffer from device `id` that the recogniser
      turned into `heard`. */
  function Outcome(heard: Recognition, id: DeviceId): CommandRecord {
    match heard
    case Unintelligible => CommandRecord("UNKNOWN", "ERROR", id, false)
    case Unavailable => CommandRecord("ERROR", "ERROR", id, false)
    case Heard(text) =>
      match Interpret(text)
      case None => CommandRecord(text, "NONE", id, false)
      case Some(c) => CommandRecord(text, Wire(c), id, true)
  }

  /** The control datagrams sent for a buffer from address `ip` that the
      recogniser turned into `heard`: one colour command, or none. */
  function Sends(heard: Recognition, ip: string): seq<Datagram> {
    if heard.Heard? && Interpret(heard.text).Some? then
      [Datagram(Addr(ip, ControlPort), Wire(Interpret(heard.text).value))]
    else []
  }

  /** The control datagrams sent for a run of handed-on buffers, in order. */
  function SentFor(ready: seq<Utterance>, recognise: seq<byte> -> Recognition): seq<Datagram>
    decreases |ready|
  {
    if |ready| == 0 then []
    else Sends(recognise(ready[0].audio), ready[0].from.ip) + SentFor(ready[1..], recognise)
  }

  /** The device ids of the senders of a run of buffers. */
  function DevicesOf(ready: seq<Utterance>): (ids: set<DeviceId>)
    ensures forall i :: 0 <= i < |ready| ==> DeviceIdOf(ready[i].from.ip) in ids
    decreases |ready|
  {
    if |ready| == 0 then {}
    else
      var ids := {DeviceIdOf(ready[0].from.ip)} + DevicesOf(ready[1..]);
      assert forall i :: 1 <= i < |ready| ==> ready[i] == ready[1..][i - 1];
      ids
  }

  /** The device of address `ip`, if `heard` makes it send a colour command. */
  function HeardFrom(heard: Recognition, ip: string): (ids: set<DeviceId>)
    ensures ids <= {DeviceIdOf(ip)}
    ensures ids == {} <==> Sends(heard, ip) == []
  {
    if Sends(heard, ip) == [] then {} else {DeviceIdOf(ip)}
  }

  /** The device ids of the senders of a run of buffers whose buffer the
      recogniser turns into a colour command. */
  function HeardOf(ready: seq<Utterance>, recognise: seq<byte> -> Recognition): (ids: set<DeviceId>)
    ensures ids <= DevicesOf(ready)
    ensures forall i :: 0 <= i < |ready| && Sends(recognise(ready[i].audio), ready[i].from.ip) != [] ==>
              DeviceIdOf(ready[i].from.ip) in ids
    decreases |ready|
  {
    if |ready| == 0 then {}
    else
      var ids := HeardFrom(recognise(ready[0].audio), ready[0].from.ip) + HeardOf(ready[1..], recognise);
      assert forall i :: 1 <= i < |ready| ==> ready[i] == ready[1..][i - 1];
      ids
  }

  /** A run of buffers sends nothing exactly when none of its senders is
      heard giving a colour. */
  lemma {:induction false} NothingSentNothingHeard(ready: seq<Utterance>, recognise: seq<byte> -> Recognition)
    ensures SentFor(ready, recognise) == [] <==> HeardOf(ready, recognise) == {}
    decreases |ready|
  {
    if |ready| > 0 {
      NothingSentNothingHeard(ready[1..], recognise);
      var u := ready[0];
      assert SentFor(ready, recognise) == Sends(recognise(u.audio), u.from.ip) + SentFor(ready[1..], recognise);
      assert HeardOf(ready, recognise) == HeardFrom(recognise(u.audio), u.from.ip) + HeardOf(ready[1..], recognise);
    }
  }

  /** A run of one buffer sends, and hears, what that buffer does. */
  lemma SingleRun(u: Utterance, recognise: seq<byte> -> Recognition)
    ensures SentFor([u], recognise) == Sends(recognise(u.audio), u.from.ip)
    ensures HeardOf([u], recognise) == HeardFrom(recognise(u.audio), u.from.ip)
  {
    assert [u][1..] == [];
  }

  /** Processing one run of buffers and then another sends, and hears, what
      processing the two runs as one does. */
  lemma {:induction false} RunsConcatenate(a: seq<Utterance>, b: seq<Utterance>, recognise: seq<byte> -> Recognition)
    ensures SentFor(a + b, recognise) == SentFor(a, recognise) + SentFor(b, recognise)
    ensures HeardOf(a + b, recognise) == HeardOf(a, recognise) + HeardOf(b, recognise)
    decreases |a|
  {
    if |a| == 0 {
      assert a + b == b;
    } else {
      var u := a[0];
      assert (a + b)[0] == u;
      assert (a + b)[1..] == a[1..] + b;
      RunsConcatenate(a[1..], b, recognise);
      var here := Sends(recognise(u.audio), u.from.ip);
      assert SentFor(a + b, recognise) == here + SentFor(a[1..] + b, recognise);
      assert SentFor(a, recognise) == here + SentFor(a[1..], recognise);
      AppendAssoc(here, SentFor(a[1..], recognise), SentFor(b, recognise));
    }
  }

  /** Outside `ids`, `after` agrees with `before`: the same keys, and the
      same entry for every key. */
  ghost predicate Framed<V>(before: map<DeviceId, V>, after: map<DeviceId, V>, ids: set<DeviceId>) {
    forall d :: d !in ids ==> (d in after <==> d in before) && (d in before ==> after[d] == before[d])
  }

  lemma AppendAssoc<T>(a: seq<T>, b: seq<T>, c: seq<T>)
    ensures (a + b) + c == a + (b + c)
  {
  }

  lemma FramedTrans<V>(a: map<DeviceId, V>, b: map<DeviceId, V>, c: map<DeviceId, V>,
                           ids: set<DeviceId>, more: set<DeviceId>)
    requires Framed(a, b, ids) && Framed(b, c, more)
    ensures Framed(a, c, ids + more)
  {
  }

  /** `after` is `before` followed by at most `n` rows, each for a device of
      `heard`. */
  ghost predicate LogGrows(before: seq<EnergyRecord>, after: seq<EnergyRecord>, heard: set<DeviceId>, n: nat) {
    && before <= after
    && |after| <= |before| + n
    && forall i :: |before| <= i < |after| ==> after[i].device in heard
  }

  /**
   * What a step from `st` to `r` did besides buffering and logging
   * commands: it sent `sent` after the datagrams already sent, changed
   * device rows only for `rows`, changed the energy state only for `heard`
   * (whose devices all have an energy entry afterwards, and no entry was
   * removed), and appended at most one energy-log row per datagram sent,
   * each for a device of `heard`.
   */
  ghost predicate Confined(st: State, r: State, rows: set<DeviceId>, heard: set<DeviceId>, sent: seq<Datagram>) {
    && r.sent == st.sent + sent
    && Framed(st.devices, r.devices, rows)
    && r.energy.Keys == st.energy.Keys + heard
    && Framed(st.energy, r.energy, heard)
    && LogGrows(st.energyLog, r.energyLog, heard, |sent|)
  }

  /** Two confined steps in a row are one step confined to both. */
  lemma ConfinedTrans(a: State, b: State, c: State,
                      rows: set<DeviceId>, heard: set<DeviceId>, sent: seq<Datagram>,
                      moreRows: set<DeviceId>, moreHeard: set<DeviceId>, moreSent: seq<Datagram>)
    requires Confined(a, b, rows, heard, sent) && Confined(b, c, moreRows, moreHeard, moreSent)
    ensures Confined(a, c, rows + moreRows, heard + moreHeard, sent + moreSent)
  {
    AppendAssoc(a.sent, sent, moreSent);
    FramedTrans(a.devices, b.devices, c.devices, rows, moreRows);
    FramedTrans(a.energy, b.energy, c.energy, heard, moreHeard);
    forall i | |a.energyLog| <= i < |c.energyLog|
      ensures c.energyLog[i].device in heard + moreHeard
    {
      if i < |b.energyLog| {
        assert c.energyLog[i] == b.energyLog[i];
      }
    }
  }

  /** A step that sends nothing and hears no device, followed by a step
      confined to the same device rows, is confined as the second step is. */
  lemma ConfinedAfterQuiet(a: State, b: State, c: State,
                           rows: set<DeviceId>, heard: set<DeviceId>, sent: seq<Datagram>)
    requires Confined(a, b, rows, {}, []) && Confined(b, c, rows, heard, sent)
    ensures Confined(a, c, rows, heard, sent)
  {
    ConfinedTrans(a, b, c, rows, {}, [], rows, heard, sent);
    assert rows + rows == rows && {} + heard == heard && [] + sent == sent;
  }

  /** A step confined to hearing no device leaves the energy state and the
      energy log as they were. */
  lemma ConfinedQuiet(st: State, r: State, rows: set<DeviceId>)
    requires Confined(st, r, rows, {}, [])
    ensures r.energy == st.energy && r.energyLog == st.energyLog
  {
    assert r.energy.Keys == st.energy.Keys;
    assert r.energyLog[..|st.energyLog|] == st.energyLog;
  }

  /**
   * A buffer handed on by the audio loop, from sender `from`, that the
   * recogniser turned into `heard`. The sender's device row is refreshed
   * first. A recognised colour is sent to the sender's control port as
   * `COLOR_<NAME>`, closes the energy interval, becomes the device's colour
   * and is logged as a success. Text with no colour phrase, and a
   * recogniser failure, send nothing and leave the energy state and energy
   * log alone; they are logged as failures (`NONE`, or `ERROR`).
   */
  function ProcessUtterance(st: State, from: Addr, heard: Recognition, now: int): (r: State)
    ensures r.buffers == st.buffers
    ensures var id := DeviceIdOf(from.ip);
            id in r.devices && r.devices[id].ip == from.ip
            && r.devices.Keys == st.devices.Keys + {id}
    ensures heard.Heard? && Interpret(heard.text).Some? ==>
              var c := Interpret(heard.text).value;
              var id := DeviceIdOf(from.ip);
              && r.sent == st.sent + [Datagram(Addr(from.ip, ControlPort), Wire(c))]
              && r.energy == Update(st.energy, id, Name(c), now).states
              && r.energyLog == LogSample(st.energyLog, Update(st.energy, id, Name(c), now).sample)
              && r.devices == SetColour(Upsert(st.devices, id, from.ip), id, Name(c))
              && r.devices[id].colour == Name(c)
              && r.commands == st.commands + [CommandRecord(heard.text, Wire(c), id, true)]
    ensures !(heard.Heard? && Interpret(heard.text).Some?) ==>
              && r.sent == st.sent
              && r.energy == st.energy
              && r.energyLog == st.energyLog
              && r.devices == Upsert(st.devices, DeviceIdOf(from.ip), from.ip)
    ensures heard.Heard? && Interpret(heard.text).None? ==>
              r.commands == st.commands + [CommandRecord(heard.text, "NONE", DeviceIdOf(from.ip), false)]
    ensures heard.Unintelligible? ==>
              r.commands == st.commands + [CommandRecord("UNKNOWN", "ERROR", DeviceIdOf(from.ip), false)]
    ensures heard.Unavailable? ==>
              r.commands == st.commands + [CommandRecord("ERROR", "ERROR", DeviceIdOf(from.ip), false)]
    ensures r.commands == st.commands + [Outcome(heard, DeviceIdOf(from.ip))]
    ensures r.sent == st.sent + Sends(heard, from.ip)
    ensures Sends(heard, from.ip) == [] ==> r.energy == st.energy && r.energyLog == st.energyLog
    ensures Consistent(st.energy) ==> Consistent(r.energy)
  {
    var id := DeviceIdOf(from.ip);
    var seen := st.(devices := Upsert(st.devices, id, from.ip));
    match heard
    case Unintelligible =>
      seen.(commands := st.commands + [CommandRecord("UNKNOWN", "ERROR", id, false)])
    case Unavailable =>
      seen.(commands := st.commands + [CommandRecord("ERROR", "ERROR", id, false)])
    case Heard(text) =>
      match Interpret(text)
      case None => seen.(commands := st.commands + [CommandRecord(text, "NONE", id, false)])
      case Some(c) => Dispatch(seen, id, from.ip, c, text, now)
  }

  /** Processing one buffer touches only its sender's device row, and the
      energy state and energy log only when a colour is heard; the energy
      log then gains at most the one row of the closed interval, for that
      sender. */
  lemma ProcessUtteranceConfined(st: State, from: Addr, heard: Recognition, now: int)
    ensures Confined(st, ProcessUtterance(st, from, heard, now), {DeviceIdOf(from.ip)},
                     HeardFrom(heard, from.ip), Sends(heard, from.ip))
  {
    var id := DeviceIdOf(from.ip);
    var seen := st.(devices := Upsert(st.devices, id, from.ip));
    var r := ProcessUtterance(st, from, heard, now);
    assert Confined(st, seen, {id}, {}, []);
    if heard.Heard? && Interpret(heard.text).Some? {
      var c := Interpret(heard.text).value;
      assert r == Dispatch(seen, id, from.ip, c, heard.text, now);
      ConfinedTrans(st, seen, r, {id}, {}, [], {id}, {id}, Sends(heard, from.ip));
    } else {
      assert r.devices == seen.devices;
    }
  }

  /** `after` is `before` followed by one row per buffer of `ready`, in
      order: the outcome of recognising that buffer, for its sender. */
  ghost predicate LogsEach(before: seq<CommandRecord>, after: seq<CommandRecord>,
                           ready: seq<Utterance>, recognise: seq<byte> -> Recognition)
  {
    && |after| == |before| + |ready|
    && after[..|before|] == before
    && forall i :: 0 <= i < |ready| ==>
         after[|before| + i] == Outcome(recognise(ready[i].audio), DeviceIdOf(ready[i].from.ip))
  }

  /** Logging one buffer, then a run of buffers, logs them all in order. */
  lemma LogsEachCons(before: seq<CommandRecord>, mid: seq<CommandRecord>, after: seq<CommandRecord>,
                       ready: seq<Utterance>, recognise: seq<byte> -> Recognition)
    requires |ready| > 0
    requires mid == before + [Outcome(recognise(ready[0].audio), DeviceIdOf(ready[0].from.ip))]
    requires LogsEach(mid, after, ready[1..], recognise)
    ensures LogsEach(before, after, ready, recognise)
  {
  }

  /** Processes handed-on buffers in order: each is recognised and logged
      once, for its sender, after the rows already in the command log. */
  function ProcessAll(st: State, ready: seq<Utterance>, recognise: seq<byte> -> Recognition, now: int): (r: State)
    ensures r.buffers == st.buffers
    ensures r.devices.Keys >= st.devices.Keys
    ensures forall i :: 0 <= i < |ready| ==> DeviceIdOf(ready[i].from.ip) in r.devices
    ensures LogsEach(st.commands, r.commands, ready, recognise)
    ensures Consistent(st.energy) ==> Consistent(r.energy)
    decreases |ready|
  {
    if |ready| == 0 then st
    else
      var u := ready[0];
      var next := ProcessUtterance(st, u.from, recognise(u.audio), now);
      var r := ProcessAll(next, ready[1..], recognise, now);
      assert forall i :: 1 <= i < |ready| ==> ready[i] == ready[1..][i - 1];
      LogsEachCons(st.commands, next.commands, r.commands, ready, recognise);
      r
  }

  /** Processing handed-on buffers sends exactly the colour commands of the
      recognised ones, in order, each to its sender's control port; it
      touches only the senders' device rows, and the energy state and energy
      log only of the senders heard giving a colour. When nothing is sent,
      the energy state and energy log do not change at all. */
  lemma {:induction false} ProcessAllEffects(st: State, ready: seq<Utterance>, recognise: seq<byte> -> Recognition, now: int)
    ensures Confined(st, ProcessAll(st, ready, recognise, now),
                     DevicesOf(ready), HeardOf(ready, recognise), SentFor(ready, recognise))
    ensures var r := ProcessAll(st, ready, recognise, now);
            SentFor(ready, recognise) == [] ==> r.energy == st.energy && r.energyLog == st.energyLog
    decreases |ready|
  {
    var r := ProcessAll(st, ready, recognise, now);
    if |ready| == 0 {
      assert r == st && st.sent + [] == st.sent;
    } else {
      var u := ready[0];
      var next := ProcessUtterance(st, u.from, recognise(u.audio), now);
      ProcessUtteranceConfined(st, u.from, recognise(u.audio), now);
      ProcessAllEffects(next, ready[1..], recognise, now);
      assert r == ProcessAll(next, ready[1..], recognise, now);
      ConfinedTrans(st, next, r,
                    {DeviceIdOf(u.from.ip)}, HeardFrom(recognise(u.audio), u.from.ip), Sends(recognise(u.audio), u.from.ip),
                    DevicesOf(ready[1..]), HeardOf(ready[1..], recognise), SentFor(ready[1..], recognise));
    }
    NothingSentNothingHeard(ready, recognise);
    if SentFor(ready, recognise) == [] {
      ConfinedQuiet(st, r, DevicesOf(ready));
    }
  }

  // ---------------------------------------------------------------------
  // The audio listener loop
  // ---------------------------------------------------------------------

  /**
   * The datagram part of an audio-loop iteration: an unseen sender gets a
   * device row and a buffer, the bytes are appended, and a size-triggered
   * flush is processed at once (at the datagram's arrival time).
   */
  function ReceiveAudio(st: State, p: Packet, recognise: seq<byte> -> Recognition): (r: State)
    requires Valid(st.buffers)
    ensures r.buffers == Ingest(st.buffers, p.from, p.data, p.at).buffers
    ensures var flushed := Ingest(st.buffers, p.from, p.data, p.at).flushed;
            r.commands == st.commands
                          + (if flushed.Some? then [Outcome(recognise(flushed.value), DeviceIdOf(p.from.ip))] else [])
    ensures var flushed := Ingest(st.buffers, p.from, p.data, p.at).flushed;
            && (flushed.None? ==> r.sent == st.sent && r.energy == st.energy && r.energyLog == st.energyLog)
            && (flushed.Some? ==> r.sent == st.sent + Sends(recognise(flushed.value), p.from.ip))
            && (flushed.Some? && Sends(recognise(flushed.value), p.from.ip) == [] ==>
                  r.energy == st.energy && r.energyLog == st.energyLog)
    ensures p.from !in st.buffers.entries ==>
              DeviceIdOf(p.from.ip) in r.devices && r.devices[DeviceIdOf(p.from.ip)].ip == p.from.ip
    ensures KnownSenders(st) ==> DeviceIdOf(p.from.ip) in r.devices
    ensures r.devices.Keys >= st.devices.Keys
    ensures Invariant(st) ==> Invariant(r)
  {
    var devices := if p.from in st.buffers.entries then st.devices
                   else Upsert(st.devices, DeviceIdOf(p.from.ip), p.from.ip);
    var ing := Ingest(st.buffers, p.from, p.data, p.at);
    var s := st.(buffers := ing.buffers, devices := devices);
    assert Invariant(st) ==> KnownSenders(s);
    if ing.flushed.Some? then ProcessUtterance(s, p.from, recognise(ing.flushed.value), p.at) else s
  }

  /** The datagram part of an audio-loop iteration touches only the
      sender's device row, and the energy state and energy log only when the
      flush it triggers is heard giving a colour; what it sends is that
      colour command. */
  lemma ReceiveAudioConfined(st: State, p: Packet, recognise: seq<byte> -> Recognition)
    requires Valid(st.buffers)
    ensures var run := HandedOn(Ingest(st.buffers, p.from, p.data, p.at), p.from);
            Confined(st, ReceiveAudio(st, p, recognise), {DeviceIdOf(p.from.ip)},
                     HeardOf(run, recognise), SentFor(run, recognise))
  {
    var id := DeviceIdOf(p.from.ip);
    var devices := if p.from in st.buffers.entries then st.devices
                   else Upsert(st.devices, id, p.from.ip);
    var ing := Ingest(st.buffers, p.from, p.data, p.at);
    var s := st.(buffers := ing.buffers, devices := devices);
    assert Confined(st, s, {id}, {}, []);
    var run := HandedOn(ing, p.from);
    if ing.flushed.Some? {
      var heard := recognise(ing.flushed.value);
      var r := ProcessUtterance(s, p.from, heard, p.at);
      assert r == ReceiveAudio(st, p, recognise);
      ProcessUtteranceConfined(s, p.from, heard, p.at);
      assert run == [Utterance(p.from, ing.flushed.value)];
      SingleRun(run[0], recognise);
      ConfinedAfterQuiet(st, s, r, {id}, HeardFrom(heard, p.from.ip), Sends(heard, p.from.ip));
    } else {
      assert s == ReceiveAudio(st, p, recognise);
      assert SentFor(run, recognise) == [] && HeardOf(run, recognise) == {};
    }
  }

  /** The sweep part of an audio-loop iteration: timed-out senders are
      dropped and their long-enough buffers processed, in iteration order. */
  function SweepAudio(st: State, recognise: seq<byte> -> Recognition, now: int): (r: State)
    requires Valid(st.buffers)
    ensures r.buffers == Sweep(st.buffers, now).buffers
    ensures LogsEach(st.commands, r.commands, Sweep(st.buffers, now).ready, recognise)
    ensures var run := Sweep(st.buffers, now).ready;
            Confined(st, r, DevicesOf(run), HeardOf(run, recognise), SentFor(run, recognise))
    ensures r.devices.Keys >= st.devices.Keys
    ensures Invariant(st) ==> Invariant(r)
  {
    var sw := Sweep(st.buffers, now);
    var s := st.(buffers := sw.buffers);
    assert Invariant(st) ==> Invariant(s) by {
      if Invariant(st) {
        assert forall a :: a in s.buffers.entries ==> a in st.buffers.entries;
      }
    }
    var r := ProcessAll(s, sw.ready, recognise, now);
    ProcessAllEffects(s, sw.ready, recognise, now);
    assert Invariant(st) ==> Invariant(r) by {
      if Invariant(st) {
        InvariantKept(s, r);
      }
    }
    r
  }

  /** What an audio-loop iteration in which a datagram arrived logs, sends
      and does to the device rows and the energy state: first the
      size-triggered flush, if any, then the swept buffers, in iteration
      order, as one run. */
  lemma ReceiveThenSweep(st: State, p: Packet, recognise: seq<byte> -> Recognition, now: int)
    requires Valid(st.buffers)
    ensures var ing := Ingest(st.buffers, p.from, p.data, p.at);
            var r := SweepAudio(ReceiveAudio(st, p, recognise), recognise, now);
            var logged := if ing.flushed.Some? then [Outcome(recognise(ing.flushed.value), DeviceIdOf(p.from.ip))] else [];
            var run := HandedOn(ing, p.from) + Sweep(ing.buffers, now).ready;
            && r.buffers == Sweep(ing.buffers, now).buffers
            && LogsEach(st.commands + logged, r.commands, Sweep(ing.buffers, now).ready, recognise)
            && Confined(st, r, {DeviceIdOf(p.from.ip)} + DevicesOf(Sweep(ing.buffers, now).ready),
                        HeardOf(run, recognise), SentFor(run, recognise))
  {
    var ing := Ingest(st.buffers, p.from, p.data, p.at);
    var received := ReceiveAudio(st, p, recognise);
    assert received.buffers == ing.buffers;
    var sw := Sweep(ing.buffers, now);
    var r := SweepAudio(received, recognise, now);
    var flush := HandedOn(ing, p.from);
    ReceiveAudioConfined(st, p, recognise);
    RunsConcatenate(flush, sw.ready, recognise);
    ConfinedTrans(st, received, r,
                  {DeviceIdOf(p.from.ip)}, HeardOf(flush, recognise), SentFor(flush, recognise),
                  DevicesOf(sw.ready), HeardOf(sw.ready, recognise), SentFor(sw.ready, recognise));
  }

  /**
   * One iteration of the audio loop: at most one datagram is received, then
   * the timeout sweep runs at `now`. The iteration keeps the server
   * invariant; afterwards no retained sender is timed out and the only
   * sender that can have been added is the datagram's.
   */
  function AudioIteration(st: State, packet: Option<Packet>, recognise: seq<byte> -> Recognition, now: int): (r: State)
    requires Valid(st.buffers)
    ensures Valid(r.buffers)
    ensures Invariant(st) ==> Invariant(r)
    ensures forall a :: a in r.buffers.entries ==> !TimedOut(r.buffers.entries[a], now)
    ensures forall a :: a in r.buffers.entries ==> a in st.buffers.entries || (packet.Some? && a == packet.value.from)
    ensures KnownSenders(st) && packet.Some? ==> DeviceIdOf(packet.value.from.ip) in r.devices
    ensures r.devices.Keys >= st.devices.Keys
    ensures packet.None? ==> LogsEach(st.commands, r.commands, Sweep(st.buffers, now).ready, recognise)
    ensures packet.Some? ==>
              var p := packet.value;
              var ing := Ingest(st.buffers, p.from, p.data, p.at);
              var flushed := if ing.flushed.Some? then [Outcome(recognise(ing.flushed.value), DeviceIdOf(p.from.ip))] else [];
              LogsEach(st.commands + flushed, r.commands, Sweep(ing.buffers, now).ready, recognise)
    ensures packet.None? ==>
              var run := Sweep(st.buffers, now).ready;
              && r.buffers == Sweep(st.buffers, now).buffers
              && Confined(st, r, DevicesOf(run), HeardOf(run, recognise), SentFor(run, recognise))
    ensures packet.Some? ==>
              var p := packet.value;
              var ing := Ingest(st.buffers, p.from, p.data, p.at);
              var run := HandedOn(ing, p.from) + Sweep(ing.buffers, now).ready;
              && r.buffers == Sweep(ing.buffers, now).buffers
              && Confined(st, r, {DeviceIdOf(p.from.ip)} + DevicesOf(Sweep(ing.buffers, now).ready),
                          HeardOf(run, recognise), SentFor(run, recognise))
  {
    match packet
    case None => SweepAudio(st, recognise, now)
    case Some(p) =>
      ReceiveThenSweep(st, p, recognise, now);
      SweepAudio(ReceiveAudio(st, p, recognise), recognise, now)
  }

  // ---------------------------------------------------------------------
  // The status listener
  // ---------------------------------------------------------------------

  /**
   * A datagram on the control port from `from`. At most `MaxStatus`
   * characters are read. A message starting with `STATUS:` sets the colour
   * column of the sender's device to the text after the first `:`, verbatim;
   * anything else is ignored. Nothing but that one colour column changes:
   * in particular the energy state is never touched.
   */
  function StatusReceived(st: State, from: Addr, raw: string): (r: State)
    ensures r.buffers == st.buffers && r.energy == st.energy && r.energyLog == st.energyLog
    ensures r.commands == st.commands && r.sent == st.sent
    ensures r.devices.Keys == st.devices.Keys
    ensures forall d :: d in st.devices && d != DeviceIdOf(from.ip) ==> r.devices[d] == st.devices[d]
    ensures var msg := if |raw| <= MaxStatus then raw else raw[..MaxStatus];
            && (!StartsWith(msg, StatusPrefix) ==> r == st)
            && (StartsWith(msg, StatusPrefix) && DeviceIdOf(from.ip) in st.devices ==>
                  r.devices[DeviceIdOf(from.ip)] == DeviceRow(st.devices[DeviceIdOf(from.ip)].ip, msg[|StatusPrefix|..]))
    ensures Invariant(st) ==> Invariant(r)
  {
    var msg := if |raw| <= MaxStatus then raw else raw[..MaxStatus];
    match ParseStatus(msg)
    case None => st
    case Some(colour) =>
      assert colour == msg[|StatusPrefix|..];
      st.(devices := SetColour(st.devices, DeviceIdOf(from.ip), colour))
  }

  // ---------------------------------------------------------------------
  // The manual control endpoint
  // ---------------------------------------------------------------------

  /**
   * A manual request to set device `id` to `requested`. An unknown device,
   * then a colour whose upper-cased form is not one of the seven, is
   * rejected with the state untouched. Otherwise the wire command goes to
   * the address recorded for the device (reverse-mapped if it is in device
   * id form), the energy interval is closed with the upper-cased colour, the
   * device takes that colour and the command is logged as `Manual: ` and
   * the colour as given.
   */
  function ManualControl(st: State, id: DeviceId, requested: string, now: int): (r: ManualResult)
    ensures id !in st.devices ==> r == ManualResult(st, Rejected("Device not found"))
    ensures id in st.devices && ManualColour(requested).None? ==> r == ManualResult(st, Rejected("Invalid color"))
    ensures r.response.Rejected? ==> r.state == st
    ensures id in st.devices && ManualColour(requested).Some? ==>
              var c := ManualColour(requested).value;
              && r.response == Accepted(id, requested)
              && Upper(requested) == Name(c)
              && r.state.sent == st.sent + [Datagram(Addr(AddressOf(st.devices[id].ip), ControlPort), Wire(c))]
              && r.state.energy == Update(st.energy, id, Upper(requested), now).states
              && r.state.energyLog == LogSample(st.energyLog, Update(st.energy, id, Upper(requested), now).sample)
              && r.state.devices == SetColour(st.devices, id, Upper(requested))
              && id in r.state.devices && r.state.devices[id].colour == Upper(requested)
              && r.state.commands == st.commands + [CommandRecord("Manual: " + requested, Wire(c), id, true)]
              && r.state.buffers == st.buffers
    ensures Invariant(st) ==> Invariant(r.state)
  {
    if id !in st.devices then ManualResult(st, Rejected("Device not found"))
    else
      match ManualColour(requested)
      case None => ManualResult(st, Rejected("Invalid color"))
      case Some(c) =>
        var ip := AddressOf(st.devices[id].ip);
        ManualResult(Dispatch(st, id, ip, c, "Manual: " + requested, now), Accepted(id, requested))
  }
}

=== FILE: text.dfy ===
/**
 * String helpers standing in for the Python `str` methods the server uses:
 * `lower`, `upper`, `in` (substring test), `startswith`, `replace` and
 * `split(sep, 1)`. Case mapping is ASCII only.
 */
module Text {
  import opened Wrappers

  predicate IsAsciiUpper(c: char) { 'A' <= c <= 'Z' }

  predicate IsAsciiLower(c: char) { 'a' <= c <= 'z' }

  function LowerChar(c: char): char {
    if IsAsciiUpper(c) then (c as int + 32) as char else c
  }

  function UpperChar(c: char): char {
    if IsAsciiLower(c) then (c as int - 32) as char else c
  }

  /** `s.lower()` on ASCII letters. */
  function Lower(s: string): (r: string)
    ensures |r| == |s|
    ensures forall i :: 0 <= i < |s| ==> r[i] == LowerChar(s[i])
  {
    seq(|s|, i requires 0 <= i < |s| => LowerChar(s[i]))
  }

  /** `s.upper()` on ASCII letters. */
  function Upper(s: string): (r: string)
    ensures |r| == |s|
    ensures forall i :: 0 <= i < |s| ==> r[i] == UpperChar(s[i])
  {
    seq(|s|, i requires 0 <= i < |s| => UpperChar(s[i]))
  }

  /** Upper-casing a character twice is upper-casing it once. */
  lemma UpperCharIdempotent(x: char)
    ensures UpperChar(UpperChar(x)) == UpperChar(x)
  {
  }

  /** Upper-casing a string twice is upper-casing it once. */
  lemma UpperIdempotent(s: string)
    ensures Upper(Upper(s)) == Upper(s)
  {
    forall i | 0 <= i < |s| ensures Upper(Upper(s))[i] == Upper(s)[i] {
      UpperCharIdempotent(s[i]);
    }
  }

  /** `s.startswith(p)`. */
  predicate StartsWith(s: string, p: string) {
    |p| <= |s| && s[..|p|] == p
  }

  /** `p in s`, scanning `s` from the left. */
  predicate Contains(s: string, p: string)
    decreases |s|
  {
    StartsWith(s, p) || (|s| > 0 && Contains(s[1..], p))
  }

  /** `p` occurs in `s` starting at index `i`. */
  ghost predicate OccursAt(s: string, p: string, i: int) {
    0 <= i && i + |p| <= |s| && s[i..i + |p|] == p
  }

  /** The scanning definition of `Contains` agrees with the positional one. */
  lemma {:induction false} ContainsIff(s: string, p: string)
    ensures Contains(s, p) <==> exists i :: OccursAt(s, p, i)
    decreases |s|
  {
    if StartsWith(s, p) {
      assert OccursAt(s, p, 0);
    } else if |s| > 0 {
      ContainsIff(s[1..], p);
      forall i ensures OccursAt(s[1..], p, i) <==> OccursAt(s, p, i + 1) {
        if 0 <= i && i + |p| <= |s| - 1 {
          assert s[1..][i..i + |p|] == s[i + 1..i + 1 + |p|];
        }
      }
      if exists i :: OccursAt(s, p, i) {
        var i :| OccursAt(s, p, i);
        if i != 0 {
          assert OccursAt(s[1..], p, i - 1);
        }
      }
    }
  }

  /** `s.replace(a, b)` for single characters `a` and `b`. */
  function ReplaceChar(s: string, a: char, b: char): (r: string)
    ensures |r| == |s|
    ensures forall i :: 0 <= i < |s| ==> r[i] == (if s[i] == a then b else s[i])
  {
    seq(|s|, i requires 0 <= i < |s| => if s[i] == a then b else s[i])
  }

  /** `s.replace(p, "")` for a non-empty `p`: every non-overlapping occurrence
      of `p`, found left to right, is deleted. */
  function RemoveAll(s: string, p: string): string
    requires |p| > 0
    decreases |s|
  {
    if |s| == 0 then []
    else if StartsWith(s, p) then RemoveAll(s[|p|..], p)
    else [s[0]] + RemoveAll(s[1..], p)
  }

  /** A string without the first character of `p` has nothing to remove. */
  lemma {:induction false} RemoveAllAbsent(s: string, p: string)
    requires |p| > 0
    requires forall i :: 0 <= i < |s| ==> s[i] != p[0]
    ensures RemoveAll(s, p) == s
    decreases |s|
  {
    if |s| > 0 {
      assert !StartsWith(s, p) by { assert s[0] != p[0]; }
      RemoveAllAbsent(s[1..], p);
    }
  }

  /** The text after the first `sep`, as `s.split(sep, 1)[1]`; None when `sep`
      does not occur (where Python would raise IndexError). */
  function AfterFirst(s: string, sep: char): Option<string>
    decreases |s|
  {
    if |s| == 0 then None
    else if s[0] == sep then Some(s[1..])
    else AfterFirst(s[1..], sep)
  }

  /** Splitting after a prefix free of `sep` keeps everything behind it. */
  lemma {:induction false} AfterFirstPast(p: string, sep: char, s: string)
    requires forall i :: 0 <= i < |p| ==> p[i] != sep
    ensures AfterFirst(p + [sep] + s, sep) == Some(s)
    decreases |p|
  {
    if |p| == 0 {
      assert p + [sep] + s == [sep] + s;
      assert ([sep] + s)[1..] == s;
    } else {
      assert (p + [sep] + s)[1..] == p[1..] + [sep] + s;
      AfterFirstPast(p[1..], sep, s);
    }
  }
}

=== FILE: wrappers.dfy ===
/** Optional values, used wherever the server's Python code returns `None`. */
module Wrappers {

  datatype Option<+T> = None | Some(value: T) {

    /** Returns the value held in Some, or `default` for None. */
    function GetOr(default: T): T {
      match this
      case Some(v) => v
      case None => default
    }
  }
}
